=== FILE: README.md ===
# Shared to-do lists: realtime core and document handlers, in Dafny

This project models the core of a shared to-do list service. Users own lists of
items, and items can have sub-items. Users befriend each other through friend
requests and see each other's changes in real time. The model covers:

- **Presence registry** (`libraries/socketLib.js`). This is the process-wide
  online list of `{userId, fullName}` entries. Authentication appends an entry
  and never de-duplicates. Disconnect splices out the first entry of the
  connection's user.
- **Room relay** (`libraries/socketLib.js`). Each connection has a set of room
  ids: its own user id after authentication, plus the friend ids sent with
  `setFriends`. List and item events are relayed to every member of the target
  room except the sender. Friend-request events go to the parties' rooms.
- **Friend-request state machine** (`events/events.js`). `sendRequest` saves a
  Pending request and then sends two independent notification writes.
  `updateRequest` sets the request to Accepted. It then pushes the requester
  into the receiver's friends, and only after that write succeeds, the receiver
  into the requester's friends.
- **Item history** (`events/events.js`,
  `controllers/item-history-controller.js`). This covers appending an audit
  record, deleting one record by id (the "undo" marker, which does not revert
  the item), and the latest record of a list that the caller may see.
- **Item and list handlers** (`controllers/item-controller.js`,
  `controllers/list-controller.js`). These create, edit, delete and complete
  items and lists, and run the list and item queries.

The document store is one `Store` value that holds a map from id to document
for each collection. Every handler is one atomic transition from a `Store` to a
`Store` plus a response. Each store write that can fail has an explicit boolean
input, so partial-failure outcomes are part of the contracts. Examples are a
friendship that exists in one direction only, and an item whose children
survive its own deletion. Fresh document ids (shortid) and the clock
(`Date.now`) are also inputs. A save under an id that is already in use fails,
like a duplicate-key error. The socket server is a `Server` value (online list,
connections, store). `Socket.Handle` processes one event on one connection and
returns the new server and the emissions it sends. Token verification is an
input of the `setUser` event.

Validation in the handlers comes from `libraries/validate-request.js`, which is
not part of this model. A required string field counts as supplied when it is
present and non-empty, which matches JavaScript truthiness. A non-string field
counts as supplied when it is present.

Modules: `Wrappers` (Option, Result, Reply), `Documents` (schemas and store),
`Collections` (counting and a max-selection loop), `Presence`, `Rooms`,
`FriendRequests`, `HistoryLog`, `Items`, `Lists`, `Socket`.

## Model

| member | source | states |
|---|---|---|
| Presence.Register | libraries/socketLib.js:24-33 | Authentication appends exactly one entry at the end and leaves every earlier entry in place. The entry's fullName is the first name, one space, then the last name. |
| Presence.FindIndex | libraries/socketLib.js:126 | The result is the first position holding the user id, or -1 exactly when no entry has that id. |
| Presence.Deregister | libraries/socketLib.js:126-129 | A connection with no user id, or a user with no entry, leaves the list unchanged. Otherwise one entry at most goes, and no entry is invented (multiset inclusion). Which entry goes is stated by Presence.DeregisterSplicesFirstMatch. |
| Presence.DeregisterSplicesFirstMatch | libraries/socketLib.js:126-129 | When position i holds the user's first entry, a disconnect gives exactly the entries before i followed by the entries after it. |
| Presence.RegisterDoesNotDeduplicate | libraries/socketLib.js:30-33 | Authenticating the same user twice adds two entries of that user. |
| Presence.DeregisterRemovesOneEntry | libraries/socketLib.js:126-129 | A disconnect lowers the user's entry count by exactly one when the user has an entry, and leaves it at zero otherwise. |
| Presence.DeregisterKeepsOthersInOrder | libraries/socketLib.js:126-129 | Other users' entries keep the same order after a disconnect. |
| Presence.DeregisterUndoesRegister | libraries/socketLib.js:126-129 | For a user with no entry, registering and then disconnecting gives back the original list. |
| Rooms.JoinAll | libraries/socketLib.js:46-50 | After joining each id in turn, the rooms are exactly the old rooms plus the given ids. |
| Rooms.SetFriends | libraries/socketLib.js:44-51 | Every given friend id becomes a room of the connection, and nothing else is added. An empty array leaves the connection unchanged. |
| Rooms.Recipients | libraries/socketLib.js:63-64 | `socket.broadcast.to(...)` never reaches the sender, reaches only live connections, and reaches nobody when there is no target room. Exact membership is stated by Rooms.RecipientsAreOtherMembers, and chained `.to()` by Rooms.ChainedRoomsUnion. |
| Rooms.RecipientsAreOtherMembers | libraries/socketLib.js:77-104 | A broadcast never reaches its sender. It reaches a connection exactly when that connection is another member of a target room. |
| Rooms.ChainedRoomsUnion | libraries/socketLib.js:64 | `.to(a).to(b)` reaches the union of both rooms' recipients, so each recipient gets the emission once. |
| FriendRequests.SendRequest | events/events.js:6-45 | A failed save changes nothing. A successful save stores a Pending request with the four party fields. Each party then gets its notification text unless its own write failed. Friends and every user's names never change. |
| FriendRequests.UpdateRequest | events/events.js:47-78 | A failed status write changes nothing. Otherwise only the status of the named request becomes Accepted, and a missing request still lets the pushes run. The receiver gets the requester as friend, plus a notification, if the first write succeeds. The requester gets the receiver only if both writes succeed. No user's names change. |
| FriendRequests.SendRequestKeepsStatuses | events/events.js:7-13 | Sending a request keeps every existing request and never moves one back from Accepted. |
| FriendRequests.UpdateRequestKeepsStatuses | events/events.js:48 | Accepting moves the named request to Accepted and takes no request back to Pending. |
| FriendRequests.SecondPushFailureLeavesAsymmetry | events/events.js:57-71 | If the requester's write fails after the receiver's succeeded, the receiver lists the requester but not the other way round. |
| FriendRequests.FirstPushFailureAddsNoFriend | events/events.js:57-63 | If the receiver's write fails, neither party gains a friend. |
| FriendRequests.AcceptTwiceDuplicatesFriend | events/events.js:57-65 | Accepting the same request twice adds the requester to the receiver's friends twice. |
| FriendRequests.Dedup | controllers/user-controller.js:118 | The de-duplicated friends contain the same ids as the input, with no repetition. |
| FriendRequests.DedupExtends | controllers/user-controller.js:182 | De-duplication keeps first-occurrence order: de-duplicating a prefix gives a prefix of the whole de-duplication. |
| FriendRequests.AcceptedFriendListedOnce | controllers/user-controller.js:182 | After two accepts, the read-side friends list shows the requester exactly once. |
| HistoryLog.TrackItemHistory | events/events.js:80-109 | A failed save, or a record id already in use, changes nothing. Otherwise exactly one record is added and all existing records are kept. The new record copies the item id, list, parent, operation name, actor id and name, privileged users, creator, creator name, createdOn, title and oldObject. Its operatedDate is the save time. Its itemType is the given one or the default "main". Its status is the supplied one, or "open" when none is supplied. |
| HistoryLog.DeleteLastAction | events/events.js:111-118 | Only the record with that id is removed. Every other record is kept unchanged. A failed delete changes nothing. |
| HistoryLog.UndoRemovesTrackedRecord | events/events.js:111-118 | Deleting the record just tracked restores the log. |
| HistoryLog.LastActivityOnList | controllers/item-history-controller.js:7-30 | A missing listId gives IHC-GLAOL-1 and a failed query gives IHC-GLAOL-2. Otherwise the answer is empty exactly when the caller sees no record of the list. If not empty, it is a visible record with the latest operatedDate. |
| HistoryLog.NeverGrantedSeesNothing | controllers/item-history-controller.js:13 | A viewer that is privileged on no record of the list has no candidates. |
| Items.ResponseLosesAddedOn | controllers/item-controller.js:29-38 | The response as written never carries the item's stored date. |
| Items.ItemResponse | controllers/item-controller.js:29-38 | The corrected response carries the item's own addedOn, and the caller's first name as creatorName. |
| Items.CreateItem | controllers/item-controller.js:7-47 | A missing title, listId or creatorName gives IC-CI-1. A failed or duplicate save gives IC-CI-2. Otherwise one open item is added and nothing else changes. Its parent is the given parent or else the listId. The client `_id` is used only together with `addedOn`. The response is the corrected projection with the stored addedOn. The response as written is that projection without addedOn (Findings, first row). |
| Items.UpdateItem | controllers/item-controller.js:49-75 | Only the title, lastModifiedOn and lastModifiedBy change. listId, parent, status and creator stay. A missing item gives IC-EI-2. The response is the corrected projection. The response as written lacks addedOn (Findings, first row). |
| Items.DeleteItem | controllers/item-controller.js:77-102 | The item and exactly its direct children go, and every other item stays. A failure of the children delete leaves the children in place after the item is gone. |
| Items.DeleteIsOneLevel | controllers/item-controller.js:83-85 | A child of the deleted item goes, but the child's own child stays. |
| Items.DeleteUndoesCreate | controllers/item-controller.js:83-85 | Deleting a just-created item that has no children restores the store. |
| Items.UpdateItemStatus | controllers/item-controller.js:104-124 | The status, completedBy, completion date, lastModifiedBy and lastModifiedOn are set. Every other field stays: title, list, parent, addedOn, creator and creatorName. A missing item is answered with no data. |
| Items.QueryPage | controllers/item-controller.js:151-160 | The answer holds the `limit` latest top-level items of the list, newest first and each once, with no item skipped. The sub-items are exactly the list's items whose parent is a returned top-level item. |
| Items.GetItemsByListIdAsWritten | controllers/item-controller.js:125-171 | Validation gives IC-GIBLI-1 and a failed top-level query gives IC-GIBLI-2. The limit is itemsToSkip+10. A failed sub-item query gets no response. |
| Items.GetItemsByListId | controllers/item-controller.js:125-171 | Same as the as-written handler, except that a failed sub-item query gives IC-GIBLI-2, so every request gets an answer. |
| Items.CreatedWithoutParentIsTopLevel | controllers/item-controller.js:18 | An item created without a parent is a top-level item of its list. |
| Lists.CreateList | controllers/list-controller.js:8-37 | A missing title or description gives LC-CL-1. A failed save, or an id already in use, gives LC-CL-2. Otherwise the create succeeds. One list is added, owned by the caller, with status "open", created at the current time and not yet modified or completed. |
| Lists.GetOwnLists | controllers/list-controller.js:39-64 | A failed query gives LC-GOL-1, and a successful one always answers. The answer is exactly the caller's lists, each named with the caller's first name. |
| Lists.CreatedListIsOwn | controllers/list-controller.js:40 | A list the caller just created appears among the caller's own lists. |
| Lists.GetFriendsLists | controllers/list-controller.js:66-111 | Missing friends give LC-GFL-1. The result is exactly the lists owned by a friend, each with its owner's first name. A list whose owner has no user document gives LC-GFL-1. |
| Lists.DeleteListById | controllers/list-controller.js:113-129 | Only that list is removed. Items and the other collections stay. |
| Lists.DeleteUndoesCreateList | controllers/list-controller.js:119 | Deleting a just-created list restores the store. |
| Lists.UpdateListById | controllers/list-controller.js:131-165 | Only the title, description and last-modified fields change. Owner, status, createdDate, completionDate and completedByName stay. A missing list gives LC-ULBI-3. |
| Lists.UpdateListStatusById | controllers/list-controller.js:167-183 | The list becomes "done", with the completion date and name recorded. Every other field stays: title, description, owner, createdDate and the last-modified fields. A missing list is answered with no data. |
| Lists.CompletionIsIdempotent | controllers/list-controller.js:173 | Completing twice leaves the list done. The second call changes only the completion date and name. |
| Socket.Handle | libraries/socketLib.js:13-137 | The connection handler as one step per event. Every emission reaches only connections that are live after the step. The connection stays live until it disconnects, and no other connection is opened or closed. The effect of each event is stated by the Socket lemma rows that follow. |
| Socket.HandleKeepsOwnRoomJoined | libraries/socketLib.js:24-27 | Every event preserves the invariant that each authenticated connection is in its own user room. |
| Socket.HandleNeverRevertsStatus | events/events.js:48 | No socket event takes a friend request back from Accepted to Pending. |
| Socket.AuthFailureChangesNothing | libraries/socketLib.js:18-23 | A rejected token leaves the server unchanged and sends auth-error to that connection only. |
| Socket.AuthSuccessRegistersOnce | libraries/socketLib.js:24-40 | A verified token joins the own room and appends one entry with the full name. The store and every other connection stay as they were. One onlineUserList emission carries the new list to every connection. |
| Socket.ConnectAsksForVerification | libraries/socketLib.js:13-15 | A new connection is added with no user and no rooms, and only it is sent verifyUser. Nothing else changes. |
| Socket.OnlineUsersGoOnlyToCaller | libraries/socketLib.js:52-55 | getOnlineUsers changes nothing and answers only the asking connection, with onlineUserList carrying the current list. |
| Socket.SetFriendsTouchesOnlyCaller | libraries/socketLib.js:44-51 | setFriends changes only the asking connection's rooms, which become the old rooms plus the given ids. It sends nothing. |
| Socket.HistoryEventsTouchOnlyHistory | libraries/socketLib.js:106-112 | trackItemHistory and undoLastAction change only the history collection, through the recorder and the undo marker respectively. They send nothing. |
| Socket.FriendRequestEventsWriteStore | libraries/socketLib.js:59-75 | The friend-request events write the store through sendRequest and updateRequest and leave the online list and the connections unchanged. |
| Socket.RelayChangesNothing | libraries/socketLib.js:77-104 | A relayed list or item event changes nothing. It is re-emitted once, under its relayed event name, with its data unchanged. |
| Socket.RelayReachesOnlyOtherMembers | libraries/socketLib.js:77-104 | Relayed and friend-request emissions never reach the sender. A connection outside the target room gets nothing, and every other member gets the relay. |
| Socket.FriendRequestAnnouncedToReceiver | libraries/socketLib.js:59-66 | Exactly two emissions go out. receivedFriendRequest carries the request and reaches exactly the other members of the receiver's room. notificationAlert reaches exactly the other members of either party's room. The sender gets neither. |
| Socket.AcceptanceAnnouncedToRequester | libraries/socketLib.js:69-75 | acceptedFriendRequest carries the request together with its id and reaches exactly the other members of the requester's room. notificationAlert reaches exactly the other members of either party's room. The sender gets neither. |
| Socket.UnauthenticatedDisconnectKeepsOnline | libraries/socketLib.js:126-128 | A connection that never authenticated removes nothing when it disconnects. |
| Socket.DisconnectRemovesOneEntry | libraries/socketLib.js:115-136 | A disconnect removes the connection and at most one entry of its user, and keeps the other users' order. Its one emission is onlineUserList carrying the new list, sent to the remaining connections. |
| Socket.ReauthenticationLeavesStaleEntry | libraries/socketLib.js:24-33 | If a connection authenticates twice as the same user and then disconnects, one entry of that user remains. |

## Left out

- Transport: socket.io delivery, acknowledgements and async interleaving. Each handler is one atomic step, and fire-and-forget writes run in source order.
- Sockets automatically join a room named by their own socket id. Connection ids are not user ids in this model, so that room is left out.
- The `verifyUser` and `notificationAlert` payloads are modelled as the empty text they are. List and item relay payloads are opaque text.
- Logging, response-builder shapes, HTTP statuses and response field projections are left out. Responses are the error code, or the documents themselves.
- JWT verification, bcrypt, mail and the rest of `controllers/user-controller.js` are out of scope. Only the `new Set` friends de-duplication is modelled.
- `libraries/validate-request.js`, `libraries/token-library.js` and `models/request-model.js` are not part of this model. The friend request record holds the five fields `events/events.js` writes.
- Schema-level required-field validation on save is folded into the save-failure input.
- `models/unread-messages.js` is not used by the modelled code.
- Mongo's order among records with equal dates is not modelled. `HistoryLog.LastActivityOnList` and `Items.QueryPage` may return any of the tied records.
- Items.GetItemsByListIdAsWritten: `itemsToSkip` is a natural number, so any negative or non-numeric value is not modelled. A non-numeric value gives a NaN limit. -10 gives limit 0, which Mongo reads as no limit. Below -10 the limit is negative. -9 to -1 give ordinary limits 1 to 9.
- Items.CreateItem: the success response is the corrected projection, which carries the stored addedOn. As written, the handler sends no addedOn (Findings, first row). The contract states the as-written response as the corrected one without addedOn.
- Items.UpdateItem: the same holds for the edit response at `controllers/item-controller.js:59`.
- Lists.UpdateListById: title and description are taken as given. An edit body without them, which would make the store write null, is not modelled.
- FriendRequests.SendRequest: the notification contents are stated only for a requester distinct from the receiver. When they coincide, both notifications land in one sequence.
- FriendRequests.UpdateRequest: the friend and notification contents are stated only for distinct requester and receiver, for the same reason.
- An accept event with no request id is not modelled. The store would then match an arbitrary request.

## Findings

| source | as written | input that shows it | evidently intended | confidence | as-written member | corrected member |
|---|---|---|---|---|---|---|
| controllers/item-controller.js:31 | The create and edit responses set `addedOn: doc.createdDate`, but item documents have no `createdDate` field (`models/item-model.js` has `addedOn`). | Any successful createItem or updateItem: the response has no addedOn. | `addedOn: doc.addedOn` | likely; not executed | Items.ResponseLosesAddedOn | Items.ItemResponse |
| controllers/item-controller.js:158 | The sub-item query's promise is neither returned nor given a `catch`, so its failure escapes the handler's error path. | A failing second `Item.find` during getItemsByListId: no response is ever sent. | Report the failure as IC-GIBLI-2, like the top-level query's. | likely; not executed | Items.GetItemsByListIdAsWritten | Items.GetItemsByListId |

=== FILE: collections.dfy ===
/** Small facts about sequences and maps that several modules share. */
module Collections {

  /** Number of occurrences of `x` in `s`. */
  function Count<T(==)>(s: seq<T>, x: T): nat {
    if |s| == 0 then 0
    else (if s[0] == x then 1 else 0) + Count(s[1..], x)
  }

  /** No element occurs twice. */
  predicate Distinct<T(==)>(s: seq<T>) {
    forall i, j :: 0 <= i < j < |s| ==> s[i] != s[j]
  }

  lemma {:induction false} CountAppend<T>(a: seq<T>, b: seq<T>, x: T)
    ensures Count(a + b, x) == Count(a, x) + Count(b, x)
  {
    if |a| == 0 {
      assert a + b == b;
    } else {
      assert (a + b)[1..] == a[1..] + b;
      CountAppend(a[1..], b, x);
    }
  }

  lemma {:induction false} CountAbsent<T>(s: seq<T>, x: T)
    requires x !in s
    ensures Count(s, x) == 0
  {
    if |s| > 0 {
      assert x !in s[1..];
      CountAbsent(s[1..], x);
    }
  }

  lemma {:induction false} CountPresent<T>(s: seq<T>, x: T)
    requires x in s
    ensures Count(s, x) > 0
  {
    if s[0] != x {
      assert x in s[1..];
      CountPresent(s[1..], x);
    }
  }

  /** In a sequence without repetitions every member occurs exactly once. */
  lemma {:induction false} CountDistinct<T>(s: seq<T>, x: T)
    requires Distinct(s) && x in s
    ensures Count(s, x) == 1
  {
    if s[0] == x {
      assert x !in s[1..] by {
        forall j | 0 <= j < |s[1..]| ensures s[1..][j] != x {
          assert s[1..][j] == s[j + 1];
        }
      }
      CountAbsent(s[1..], x);
    } else {
      assert x in s[1..];
      CountDistinct(s[1..], x);
    }
  }

  /** A key of `s` whose value in `m` is at least every other key's in `s`. */
  method ArgMax<K>(m: map<K, int>, s: set<K>) returns (best: K)
    requires s != {} && s <= m.Keys
    ensures best in s
    ensures forall k :: k in s ==> m[k] <= m[best]
  {
    best :| best in s;
    var rest := s - {best};
    while rest != {}
      invariant rest <= s
      invariant best in s
      invariant forall k :: k in s && k !in rest ==> m[k] <= m[best]
      decreases rest
    {
      var k :| k in rest;
      if m[best] < m[k] {
        best := k;
      }
      rest := rest - {k};
    }
  }
}

=== FILE: documents.dfy ===
/**
 * The persisted documents of the to-do service (its Mongoose schemas), with
 * the document store reduced to one map from id to document per collection.
 */
module Documents {
  import opened Wrappers

  type Id = string

  /** `Date.now()` values and ISO date strings, as integers. */
  type Time = int

  /** JavaScript truthiness of an optional string: absent and `""` are falsy. */
  predicate Supplied(f: Option<string>) {
    f.Some? && f.value != ""
  }

  /** `f || fallback` in JavaScript. */
  function OrElse(f: Option<string>, fallback: string): string {
    if Supplied(f) then f.value else fallback
  }

  /** One entry of a user's notification sequence; `arrived` defaults to the write time. */
  datatype Notification = Notification(message: string, arrived: Time)

  /** A user document: the fields the core reads or writes. `friends` and
      `notifications` only ever grow by `$push`. */
  datatype User = User(
    firstName: string,
    lastName: string,
    friends: seq<Id>,
    notifications: seq<Notification>)

  datatype RequestStatus = Pending | Accepted

  /** A friend request document. */
  datatype FriendRequest = FriendRequest(
    requesterId: Id,
    requesterName: string,
    receiverId: Id,
    receiverName: string,
    status: RequestStatus)

  /** A to-do list document. */
  datatype TodoList = TodoList(
    title: string,
    description: string,
    owner: Id,
    createdDate: Time,
    lastModifiedOn: Option<Time>,
    status: string,
    completionDate: Option<Time>,
    lastModifiedBy: Option<Id>,
    lastModifiedByName: Option<string>,
    completedByName: Option<string>)

  /** An item document. `parent` is the list id for a top-level item and the
      parent item's id for a sub-item. */
  datatype Item = Item(
    title: string,
    creator: Id,
    addedOn: Time,
    listId: Id,
    lastModifiedOn: Time,
    status: string,
    parent: Id,
    lastModifiedBy: Option<Id>,
    creatorName: string,
    completionDate: Option<Time>,
    completedBy: Option<Id>)

  /** The prior field values an item-history record may carry. */
  datatype OldObject = OldObject(
    title: Option<string>,
    status: Option<string>,
    completionDate: Option<string>,
    completedBy: Option<string>)

  /** An item-history (audit) record; only `previliegedUsers` may read it. */
  datatype ItemHistory = ItemHistory(
    itemId: Id,
    listId: Id,
    parent: Id,
    itemType: string,
    operatedById: Id,
    operatedByName: string,
    operationName: string,
    previliegedUsers: seq<Id>,
    operatedDate: Time,
    createdOn: string,
    creator: Id,
    creatorName: string,
    title: string,
    status: string,
    oldObject: Option<OldObject>)

  /** The whole document store. */
  datatype Store = Store(
    users: map<Id, User>,
    requests: map<Id, FriendRequest>,
    lists: map<Id, TodoList>,
    items: map<Id, Item>,
    history: map<Id, ItemHistory>)
}

=== FILE: friend_requests.dfy ===
/**
 * The friend-request state machine: `sendRequest` saves a Pending request and
 * then pushes one notification to each party; `updateRequest` sets the status
 * to Accepted and then pushes each party into the other's friends, the second
 * push running only once the first has succeeded. No write is transactional.
 */
module FriendRequests {
  import opened Wrappers
  import opened Documents
  import opened Collections

  /** Payload of the `sendFriendRequest` and `acceptFriendRequest` events. */
  datatype RequestInput = RequestInput(
    requesterId: Id,
    requesterName: string,
    receiverId: Id,
    receiverName: string)

  /** Which store writes of one handler fail. `primary` is the request save or
      status update; `first` and `second` are the two user updates in source
      order (requester then receiver on send, receiver then requester on accept). */
  datatype Faults = Faults(primary: bool, first: bool, second: bool)

  /** The request document `sendRequest` builds. */
  function NewRequest(r: RequestInput): FriendRequest {
    FriendRequest(r.requesterId, r.requesterName, r.receiverId, r.receiverName, Pending)
  }

  function SentNote(r: RequestInput, now: Time): Notification {
    Notification("You have sent a friend request to " + r.receiverName, now)
  }

  function ReceivedNote(r: RequestInput, now: Time): Notification {
    Notification("You have received a friend request from " + r.requesterName, now)
  }

  function AcceptedNote(r: RequestInput, now: Time): Notification {
    Notification("Your friend request was accepted by " + r.receiverName, now)
  }

  function AcceptingNote(r: RequestInput, now: Time): Notification {
    Notification("You have accepted friend request of " + r.requesterName, now)
  }

  /** One `findOneAndUpdate({_id}, {$push: ...})` on a user: appends `friend`
      (when given) to the friends and `note` to the notifications. A missing
      user matches nothing; a failed write changes nothing. */
  function Push(users: map<Id, User>, id: Id, friend: Option<Id>, note: Notification, fails: bool): (r: map<Id, User>)
    ensures r.Keys == users.Keys
    ensures forall u :: u in users && u != id ==> r[u] == users[u]
    ensures forall u :: u in users ==> r[u].firstName == users[u].firstName && r[u].lastName == users[u].lastName
  {
    if id in users && !fails then
      var u := users[id];
      var added := if friend.Some? then [friend.value] else [];
      users[id := u.(friends := u.friends + added, notifications := u.notifications + [note])]
    else users
  }

  /** The request save succeeds: no injected failure and the fresh id is unused
      (a reused id is a duplicate-key error). */
  predicate Saved(s: Store, requestId: Id, f: Faults) {
    !f.primary && requestId !in s.requests
  }

  /** `sendRequest`: saves a Pending request, then (only if the save succeeded)
      notifies requester and receiver by two independent writes. */
  function SendRequest(s: Store, r: RequestInput, requestId: Id, now: Time, f: Faults): (t: Store)
    ensures !Saved(s, requestId, f) ==> t == s
    ensures Saved(s, requestId, f) ==> t.requests == s.requests[requestId := NewRequest(r)]
    ensures Saved(s, requestId, f) ==> t.requests[requestId].status == Pending
    ensures t.lists == s.lists && t.items == s.items && t.history == s.history
    ensures t.users.Keys == s.users.Keys
    ensures forall u :: u in s.users ==> t.users[u].friends == s.users[u].friends
    ensures forall u :: u in s.users ==> t.users[u].firstName == s.users[u].firstName && t.users[u].lastName == s.users[u].lastName
    ensures forall u :: u in s.users && u != r.requesterId && u != r.receiverId ==> t.users[u] == s.users[u]
    ensures r.requesterId != r.receiverId && r.requesterId in s.users ==>
      t.users[r.requesterId].notifications
        == s.users[r.requesterId].notifications + (if Saved(s, requestId, f) && !f.first then [SentNote(r, now)] else [])
    ensures r.requesterId != r.receiverId && r.receiverId in s.users ==>
      t.users[r.receiverId].notifications
        == s.users[r.receiverId].notifications + (if Saved(s, requestId, f) && !f.second then [ReceivedNote(r, now)] else [])
  {
    if !Saved(s, requestId, f) then s
    else
      var toRequester := Push(s.users, r.requesterId, None, SentNote(r, now), f.first);
      var toReceiver := Push(toRequester, r.receiverId, None, ReceivedNote(r, now), f.second);
      s.(requests := s.requests[requestId := NewRequest(r)], users := toReceiver)
  }

  /** `updateRequest`: sets the status of request `requestId` to Accepted (a
      missing request matches nothing, and the handler carries on), then pushes
      the requester into the receiver's friends and, only if that write
      succeeded, the receiver into the requester's friends. */
  function UpdateRequest(s: Store, requestId: Id, r: RequestInput, now: Time, f: Faults): (t: Store)
    ensures f.primary ==> t == s
    ensures !f.primary && requestId in s.requests ==>
      t.requests == s.requests[requestId := s.requests[requestId].(status := Accepted)]
    ensures requestId !in s.requests ==> t.requests == s.requests
    ensures t.lists == s.lists && t.items == s.items && t.history == s.history
    ensures t.users.Keys == s.users.Keys
    ensures forall u :: u in s.users ==> t.users[u].firstName == s.users[u].firstName && t.users[u].lastName == s.users[u].lastName
    ensures forall u :: u in s.users && u != r.requesterId && u != r.receiverId ==> t.users[u] == s.users[u]
    ensures r.requesterId != r.receiverId && r.receiverId in s.users ==>
      t.users[r.receiverId].friends
        == s.users[r.receiverId].friends + (if !f.primary && !f.first then [r.requesterId] else [])
    ensures r.requesterId != r.receiverId && r.requesterId in s.users ==>
      t.users[r.requesterId].friends
        == s.users[r.requesterId].friends + (if !f.primary && !f.first && !f.second then [r.receiverId] else [])
    ensures r.requesterId != r.receiverId && r.receiverId in s.users ==>
      t.users[r.receiverId].notifications
        == s.users[r.receiverId].notifications + (if !f.primary && !f.first then [AcceptingNote(r, now)] else [])
    ensures r.requesterId != r.receiverId && r.requesterId in s.users ==>
      t.users[r.requesterId].notifications
        == s.users[r.requesterId].notifications + (if !f.primary && !f.first && !f.second then [AcceptedNote(r, now)] else [])
  {
    if f.primary then s
    else
      var requests :=
        if requestId in s.requests then s.requests[requestId := s.requests[requestId].(status := Accepted)]
        else s.requests;
      var toReceiver := Push(s.users, r.receiverId, Some(r.requesterId), AcceptingNote(r, now), f.first);
      var toRequester :=
        if f.first then toReceiver
        else Push(toReceiver, r.requesterId, Some(r.receiverId), AcceptedNote(r, now), f.second);
      s.(requests := requests, users := toRequester)
  }

  /** No request disappears, and none goes from Accepted back to Pending. */
  predicate StatusMonotone(before: map<Id, FriendRequest>, after: map<Id, FriendRequest>) {
    forall id :: id in before ==>
      id in after && (before[id].status == Accepted ==> after[id].status == Accepted)
  }

  lemma SendRequestKeepsStatuses(s: Store, r: RequestInput, requestId: Id, now: Time, f: Faults)
    ensures StatusMonotone(s.requests, SendRequest(s, r, requestId, now, f).requests)
  {
  }

  /** Accepting moves the request to Accepted and never takes any request back
      to Pending. */
  lemma UpdateRequestKeepsStatuses(s: Store, requestId: Id, r: RequestInput, now: Time, f: Faults)
    ensures var t := UpdateRequest(s, requestId, r, now, f);
      StatusMonotone(s.requests, t.requests)
      && (!f.primary && requestId in s.requests ==> t.requests[requestId].status == Accepted)
  {
  }

  /** When the requester's update fails after the receiver's succeeded, the
      receiver lists the requester as a friend but not the other way round. */
  lemma SecondPushFailureLeavesAsymmetry(s: Store, requestId: Id, r: RequestInput, now: Time)
    requires r.requesterId != r.receiverId
    requires r.requesterId in s.users && r.receiverId in s.users
    requires r.receiverId !in s.users[r.requesterId].friends
    ensures var t := UpdateRequest(s, requestId, r, now, Faults(false, false, true));
      r.requesterId in t.users[r.receiverId].friends
      && r.receiverId !in t.users[r.requesterId].friends
  {
    var t := UpdateRequest(s, requestId, r, now, Faults(false, false, true));
    assert t.users[r.receiverId].friends == s.users[r.receiverId].friends + [r.requesterId];
    assert t.users[r.receiverId].friends[|s.users[r.receiverId].friends|] == r.requesterId;
  }

  /** When the receiver's update fails, neither side gains a friend. */
  lemma FirstPushFailureAddsNoFriend(s: Store, requestId: Id, r: RequestInput, now: Time, secondFails: bool)
    requires r.requesterId != r.receiverId
    requires r.requesterId in s.users && r.receiverId in s.users
    ensures var t := UpdateRequest(s, requestId, r, now, Faults(false, true, secondFails));
      t.users[r.receiverId].friends == s.users[r.receiverId].friends
      && t.users[r.requesterId].friends == s.users[r.requesterId].friends
  {
  }

  /** Friend pushes never de-duplicate: accepting the same request twice puts
      the requester into the receiver's friends twice. */
  lemma {:induction false} AcceptTwiceDuplicatesFriend(s: Store, requestId: Id, r: RequestInput, now1: Time, now2: Time)
    requires r.requesterId != r.receiverId
    requires r.requesterId in s.users && r.receiverId in s.users
    ensures var ok := Faults(false, false, false);
      var t := UpdateRequest(UpdateRequest(s, requestId, r, now1, ok), requestId, r, now2, ok);
      Count(t.users[r.receiverId].friends, r.requesterId)
        == Count(s.users[r.receiverId].friends, r.requesterId) + 2
  {
    var ok := Faults(false, false, false);
    var once := UpdateRequest(s, requestId, r, now1, ok);
    CountAppend(s.users[r.receiverId].friends, [r.requesterId], r.requesterId);
    CountAppend(once.users[r.receiverId].friends, [r.requesterId], r.requesterId);
  }

  /** The read-side de-duplication of a friends array (`[...new Set(friends)]`):
      each id once, in order of first occurrence. */
  function Dedup(ids: seq<Id>): (r: seq<Id>)
    ensures forall x :: x in r <==> x in ids
    ensures Distinct(r)
    ensures |r| <= |ids|
  {
    if |ids| == 0 then []
    else
      var init := ids[..|ids| - 1];
      assert ids == init + [ids[|ids| - 1]];
      var d := Dedup(init);
      if ids[|ids| - 1] in d then d else d + [ids[|ids| - 1]]
  }

  /** De-duplication keeps first-occurrence order: the de-duplicated prefix of a
      friends array is a prefix of the whole array's de-duplication. */
  lemma {:induction false} DedupExtends(a: seq<Id>, b: seq<Id>)
    ensures Dedup(a) <= Dedup(a + b)
    decreases |b|
  {
    if |b| == 0 {
      assert a + b == a;
    } else {
      var b' := b[..|b| - 1];
      DedupExtends(a, b');
      assert (a + b)[..|a + b| - 1] == a + b';
    }
  }

  /** However often a request was accepted, the friends read side shows the
      requester once. */
  lemma {:induction false} AcceptedFriendListedOnce(s: Store, requestId: Id, r: RequestInput, now1: Time, now2: Time)
    requires r.requesterId != r.receiverId
    requires r.requesterId in s.users && r.receiverId in s.users
    ensures var ok := Faults(false, false, false);
      var t := UpdateRequest(UpdateRequest(s, requestId, r, now1, ok), requestId, r, now2, ok);
      Count(Dedup(t.users[r.receiverId].friends), r.requesterId) == 1
  {
    var ok := Faults(false, false, false);
    var t := UpdateRequest(UpdateRequest(s, requestId, r, now1, ok), requestId, r, now2, ok);
    var fr := t.users[r.receiverId].friends;
    assert fr[|fr| - 1] == r.requesterId;
    CountDistinct(Dedup(fr), r.requesterId);
  }
}

=== FILE: history_log.dfy ===
/**
 * The item-history audit trail: `trackItemHistory` appends a record,
 * `deleteLastAction` (the "undo" marker) deletes one record by id without
 * reverting the item, and `getLastActivityOnList` returns the most recent
 * record of a list that the caller is privileged to see.
 */
module HistoryLog {
  import opened Wrappers
  import opened Documents
  import opened Collections

  /** Payload of the `trackItemHistory` event. */
  datatype HistoryInput = HistoryInput(
    itemId: Id,
    listId: Id,
    parent: Id,
    itemType: Option<string>,
    operatedById: Id,
    operatedByName: string,
    operationName: string,
    previliegedUsers: seq<Id>,
    creator: Id,
    creatorName: string,
    createdOn: string,
    title: string,
    status: Option<string>,
    oldObject: Option<OldObject>)

  /** The record saved for `d`: status falls back to "open", itemType to the
      schema default "main", and operatedDate is the save time. */
  function NewRecord(d: HistoryInput, now: Time): ItemHistory {
    ItemHistory(
      d.itemId, d.listId, d.parent, d.itemType.GetOr("main"), d.operatedById, d.operatedByName,
      d.operationName, d.previliegedUsers, now, d.createdOn, d.creator, d.creatorName, d.title,
      OrElse(d.status, "open"), d.oldObject)
  }

  /** `trackItemHistory`: saves one new record under a fresh id. A failed save
      (or a reused id) is logged and changes nothing. */
  function TrackItemHistory(h: map<Id, ItemHistory>, d: HistoryInput, recordId: Id, now: Time, fails: bool): (r: map<Id, ItemHistory>)
    ensures fails || recordId in h ==> r == h
    ensures !fails && recordId !in h ==> r.Keys == h.Keys + {recordId}
    ensures forall k :: k in h ==> k in r && r[k] == h[k]
    ensures recordId in r && recordId !in h ==>
      && r[recordId].status != ""
      && (Supplied(d.status) ==> r[recordId].status == d.status.value)
      && (!Supplied(d.status) ==> r[recordId].status == "open")
      && r[recordId].oldObject == d.oldObject
      && r[recordId].itemId == d.itemId
      && r[recordId].listId == d.listId
      && r[recordId].parent == d.parent
      && (d.itemType.Some? ==> r[recordId].itemType == d.itemType.value)
      && (d.itemType.None? ==> r[recordId].itemType == "main")
      && r[recordId].operationName == d.operationName
      && r[recordId].operatedById == d.operatedById
      && r[recordId].operatedByName == d.operatedByName
      && r[recordId].previliegedUsers == d.previliegedUsers
      && r[recordId].operatedDate == now
      && r[recordId].createdOn == d.createdOn
      && r[recordId].creator == d.creator
      && r[recordId].creatorName == d.creatorName
      && r[recordId].title == d.title
  {
    if fails || recordId in h then h
    else h[recordId := NewRecord(d, now)]
  }

  /** `deleteLastAction`: deletes exactly the record with that id (none if it
      is absent); every other record stays as it was. */
  function DeleteLastAction(h: map<Id, ItemHistory>, recordId: Id, fails: bool): (r: map<Id, ItemHistory>)
    ensures fails ==> r == h
    ensures !fails ==> recordId !in r && r.Keys == h.Keys - {recordId}
    ensures forall k :: k in r ==> k in h && r[k] == h[k]
  {
    if fails then h else h - {recordId}
  }

  /** Undoing the record just tracked restores the log. */
  lemma UndoRemovesTrackedRecord(h: map<Id, ItemHistory>, d: HistoryInput, recordId: Id, now: Time)
    requires recordId !in h
    ensures DeleteLastAction(TrackItemHistory(h, d, recordId, now, false), recordId, false) == h
  {
  }

  /** A record the caller may see on list `listId`. */
  predicate Visible(rec: ItemHistory, listId: Id, viewer: Id) {
    rec.listId == listId && viewer in rec.previliegedUsers
  }

  /** Ids of the records `getLastActivityOnList` considers. */
  function Candidates(h: map<Id, ItemHistory>, listId: Id, viewer: Id): set<Id> {
    set k | k in h && Visible(h[k], listId, viewer)
  }

  /** `getLastActivityOnList`: with no listId the request is rejected with
      IHC-GLAOL-1; a failing query reports IHC-GLAOL-2; otherwise the answer is
      one visible record with the latest operatedDate, or nothing when the
      caller sees no record of the list. The log is only read. */
  method LastActivityOnList(h: map<Id, ItemHistory>, listId: Option<Id>, viewer: Id, queryFails: bool)
    returns (r: Result<Option<ItemHistory>>)
    ensures !Supplied(listId) ==> r == Err("IHC-GLAOL-1")
    ensures Supplied(listId) && queryFails ==> r == Err("IHC-GLAOL-2")
    ensures Supplied(listId) && !queryFails ==> r.Ok?
    ensures r.Ok? ==> (r.value.None? <==> Candidates(h, listId.value, viewer) == {})
    ensures r.Ok? && r.value.Some? ==>
      r.value.value in h.Values && Visible(r.value.value, listId.value, viewer)
    ensures r.Ok? && r.value.Some? ==>
      forall k :: k in Candidates(h, listId.value, viewer) ==> h[k].operatedDate <= r.value.value.operatedDate
  {
    if !Supplied(listId) {
      return Err("IHC-GLAOL-1");
    }
    if queryFails {
      return Err("IHC-GLAOL-2");
    }
    var found := Candidates(h, listId.value, viewer);
    if found == {} {
      return Ok(None);
    }
    var dates := map k | k in h :: h[k].operatedDate;
    var latest := ArgMax(dates, found);
    return Ok(Some(h[latest]));
  }

  /** A viewer listed on no record of the list is shown nothing. */
  lemma NeverGrantedSeesNothing(h: map<Id, ItemHistory>, listId: Id, viewer: Id)
    requires forall k :: k in h && h[k].listId == listId ==> viewer !in h[k].previliegedUsers
    ensures Candidates(h, listId, viewer) == {}
  {
  }
}

=== FILE: items.dfy ===
/**
 * The item handlers: create, edit, delete (one-level cascade), status change,
 * and the paged query of a list's top-level items with their sub-items.
 * Items form a two-level tree: a top-level item's parent is its list id, a
 * sub-item's parent is a top-level item's id.
 */
module Items {
  import opened Wrappers
  import opened Documents
  import opened Collections

  /** The item data the create and edit handlers send back. */
  datatype ItemView = ItemView(
    id: Id,
    title: string,
    addedOn: Option<Time>,
    creator: Id,
    creatorName: string,
    listId: Id,
    parent: Id,
    status: string)

  /** The response body as the create and edit handlers build it: `addedOn` is
      read from `createdDate`, a field item documents do not have, so it is
      always absent. `CreateItem` and `UpdateItem` answer with the corrected
      `ItemResponse` and state how it differs from this one. */
  function ItemResponseAsWritten(id: Id, it: Item, callerFirstName: string): ItemView {
    ItemView(id, it.title, None, it.creator, callerFirstName, it.listId, it.parent, it.status)
  }

  /** The sent-back `addedOn` never carries the item's stored date. */
  lemma ResponseLosesAddedOn(id: Id, it: Item, callerFirstName: string)
    ensures ItemResponseAsWritten(id, it, callerFirstName).addedOn != Some(it.addedOn)
  {
  }

  /** The response body with `addedOn` read from the item's own date. */
  function ItemResponse(id: Id, it: Item, callerFirstName: string): (v: ItemView)
    ensures v.addedOn == Some(it.addedOn)
    ensures v.id == id && v.title == it.title && v.listId == it.listId && v.parent == it.parent && v.status == it.status
    ensures v.creatorName == callerFirstName
  {
    ItemView(id, it.title, Some(it.addedOn), it.creator, callerFirstName, it.listId, it.parent, it.status)
  }

  /** Body of a create request. */
  datatype NewItem = NewItem(
    title: Option<string>,
    listId: Option<Id>,
    creatorName: Option<string>,
    parent: Option<Id>,
    id: Option<Id>,
    addedOn: Option<Time>)

  predicate CreateValid(input: NewItem) {
    Supplied(input.title) && Supplied(input.listId) && Supplied(input.creatorName)
  }

  /** The created document's id: the client's `_id` only when `addedOn` came
      with it, the generated id otherwise. */
  function ChosenId(input: NewItem, freshId: Id): Id {
    if Supplied(input.id) && input.addedOn.Some? then input.id.value else freshId
  }

  /** `createItem`: rejects a body without title, listId or creatorName
      (IC-CI-1); a failed save, including a save under an id already in use,
      reports IC-CI-2. The new item is open and hangs under the given parent,
      or under its list when none is given. */
  function CreateItem(s: Store, caller: Id, callerFirstName: string, input: NewItem, freshId: Id, now: Time, saveFails: bool): (r: Reply<Store, ItemView>)
    ensures !CreateValid(input) ==> r == Reply(s, Err("IC-CI-1"))
    ensures CreateValid(input) && (saveFails || ChosenId(input, freshId) in s.items) ==> r == Reply(s, Err("IC-CI-2"))
    ensures CreateValid(input) && !saveFails && ChosenId(input, freshId) !in s.items ==> r.result.Ok?
    ensures r.result.Err? ==> r.state == s
    ensures r.result.Ok? ==>
      var id := ChosenId(input, freshId);
      && id !in s.items
      && r.state == s.(items := r.state.items)
      && r.state.items.Keys == s.items.Keys + {id}
      && (forall k :: k in s.items ==> r.state.items[k] == s.items[k])
      && r.state.items[id].status == "open"
      && r.state.items[id].title == input.title.value
      && r.state.items[id].listId == input.listId.value
      && r.state.items[id].parent == (if Supplied(input.parent) then input.parent.value else input.listId.value)
      && r.state.items[id].creator == caller
      && r.state.items[id].creatorName == input.creatorName.value
      && r.state.items[id].addedOn == input.addedOn.GetOr(now)
      && r.result.value == ItemResponse(id, r.state.items[id], callerFirstName)
      && r.result.value.addedOn == Some(r.state.items[id].addedOn)
    ensures r.result.Ok? ==>
      ItemResponseAsWritten(ChosenId(input, freshId), r.state.items[ChosenId(input, freshId)], callerFirstName)
        == r.result.value.(addedOn := None)
  {
    if !CreateValid(input) then Reply(s, Err("IC-CI-1"))
    else
      var id := ChosenId(input, freshId);
      if saveFails || id in s.items then Reply(s, Err("IC-CI-2"))
      else
        var listId := input.listId.value;
        var it := Item(
          input.title.value, caller, input.addedOn.GetOr(now), listId, now, "open",
          OrElse(input.parent, listId), None, input.creatorName.value, None, None);
        Reply(s.(items := s.items[id := it]), Ok(ItemResponse(id, it, callerFirstName)))
  }

  /** Body of an edit request; every field is required, but only title,
      editedOn and editedBy are written. */
  datatype ItemEdit = ItemEdit(
    id: Option<Id>,
    title: Option<string>,
    creator: Option<Id>,
    listId: Option<Id>,
    editedOn: Option<Time>,
    editedBy: Option<Id>,
    parent: Option<Id>)

  predicate EditValid(e: ItemEdit) {
    && Supplied(e.id) && Supplied(e.title) && Supplied(e.creator) && Supplied(e.listId)
    && e.editedOn.Some? && Supplied(e.editedBy) && Supplied(e.parent)
  }

  /** `updateItem`: rewrites the title and the last-modified fields of one item.
      A missing item makes the handler read a null document, which it reports
      like a failed write (IC-EI-2). */
  function UpdateItem(s: Store, e: ItemEdit, callerFirstName: string, fails: bool): (r: Reply<Store, ItemView>)
    ensures !EditValid(e) ==> r == Reply(s, Err("IC-EI-1"))
    ensures EditValid(e) && (fails || e.id.value !in s.items) ==> r == Reply(s, Err("IC-EI-2"))
    ensures EditValid(e) && !fails && e.id.value in s.items ==> r.result.Ok?
    ensures r.result.Err? ==> r.state == s
    ensures r.result.Ok? ==>
      var id := e.id.value;
      && id in s.items
      && r.state == s.(items := r.state.items)
      && r.state.items.Keys == s.items.Keys
      && (forall k :: k in s.items && k != id ==> r.state.items[k] == s.items[k])
      && r.state.items[id].title == e.title.value
      && r.state.items[id].lastModifiedOn == e.editedOn.value
      && r.state.items[id].lastModifiedBy == Some(e.editedBy.value)
      && r.state.items[id].listId == s.items[id].listId
      && r.state.items[id].parent == s.items[id].parent
      && r.state.items[id].status == s.items[id].status
      && r.state.items[id].addedOn == s.items[id].addedOn
      && r.state.items[id].creator == s.items[id].creator
      && r.state.items[id].creatorName == s.items[id].creatorName
      && r.state.items[id].completedBy == s.items[id].completedBy
      && r.state.items[id].completionDate == s.items[id].completionDate
      && r.result.value == ItemResponse(id, r.state.items[id], callerFirstName)
    ensures r.result.Ok? ==>
      ItemResponseAsWritten(e.id.value, r.state.items[e.id.value], callerFirstName) == r.result.value.(addedOn := None)
  {
    if !EditValid(e) then Reply(s, Err("IC-EI-1"))
    else if fails || e.id.value !in s.items then Reply(s, Err("IC-EI-2"))
    else
      var id := e.id.value;
      var it := s.items[id].(title := e.title.value, lastModifiedOn := e.editedOn.value, lastModifiedBy := Some(e.editedBy.value));
      Reply(s.(items := s.items[id := it]), Ok(ItemResponse(id, it, callerFirstName)))
  }

  /** `deleteItem`: deletes the item (IC-DI-3 when that write fails), then every
      item whose parent is that id (IC-DI-2 when this second write fails, after
      the item itself is gone). Children are deleted even if the item was
      already absent; grandchildren are never deleted. */
  function DeleteItem(s: Store, id: Option<Id>, firstFails: bool, secondFails: bool): (r: Reply<Store, ()>)
    ensures !Supplied(id) ==> r == Reply(s, Err("IC-DI-1"))
    ensures Supplied(id) && firstFails ==> r == Reply(s, Err("IC-DI-3"))
    ensures Supplied(id) && !firstFails && secondFails ==>
      r.result == Err("IC-DI-2") && r.state.items == s.items - {id.value}
    ensures Supplied(id) && !firstFails && !secondFails ==>
      && r.result.Ok?
      && forall k :: k in r.state.items <==> k in s.items && k != id.value && s.items[k].parent != id.value
    ensures r.state == s.(items := r.state.items)
    ensures forall k :: k in r.state.items ==> k in s.items && r.state.items[k] == s.items[k]
  {
    if !Supplied(id) then Reply(s, Err("IC-DI-1"))
    else if firstFails then Reply(s, Err("IC-DI-3"))
    else
      var without := s.items - {id.value};
      if secondFails then Reply(s.(items := without), Err("IC-DI-2"))
      else Reply(s.(items := map k | k in without && without[k].parent != id.value :: without[k]), Ok(()))
  }

  /** The cascade is one level deep: a child goes, its own child stays. */
  lemma DeleteIsOneLevel(s: Store, id: Id, child: Id, grandchild: Id)
    requires child in s.items && grandchild in s.items
    requires s.items[child].parent == id && s.items[grandchild].parent == child
    requires id != "" && child != id && grandchild != id
    ensures var r := DeleteItem(s, Some(id), false, false);
      child !in r.state.items && grandchild in r.state.items
  {
  }

  /** Creating an item under a fresh id and deleting it again restores the store
      when no item names that id as its parent. */
  lemma DeleteUndoesCreate(s: Store, caller: Id, callerFirstName: string, input: NewItem, freshId: Id, now: Time)
    requires CreateValid(input) && ChosenId(input, freshId) !in s.items && ChosenId(input, freshId) != ""
    requires forall k :: k in s.items ==> s.items[k].parent != ChosenId(input, freshId)
    ensures var created := CreateItem(s, caller, callerFirstName, input, freshId, now, false);
      DeleteItem(created.state, Some(ChosenId(input, freshId)), false, false).state == s
  {
    var id := ChosenId(input, freshId);
    var created := CreateItem(s, caller, callerFirstName, input, freshId, now, false);
    var deleted := DeleteItem(created.state, Some(id), false, false);
    assert deleted.state.items == s.items;
  }

  /** Body of a status-change request. */
  datatype StatusEdit = StatusEdit(
    id: Option<Id>,
    completedBy: Option<Id>,
    editedBy: Option<Id>,
    status: Option<string>)

  predicate StatusValid(e: StatusEdit) {
    Supplied(e.id) && Supplied(e.completedBy) && Supplied(e.editedBy) && Supplied(e.status)
  }

  /** `updateItemStatus`: sets the given status and records who completed it,
      when, and who edited it last. A missing item is answered with no data. */
  function UpdateItemStatus(s: Store, e: StatusEdit, now: Time, fails: bool): (r: Reply<Store, Option<Item>>)
    ensures !StatusValid(e) ==> r == Reply(s, Err("IC-UIS-1"))
    ensures StatusValid(e) && fails ==> r == Reply(s, Err("IC-UIS-2"))
    ensures StatusValid(e) && !fails && e.id.value !in s.items ==> r == Reply(s, Ok(None))
    ensures StatusValid(e) && !fails && e.id.value in s.items ==>
      var id := e.id.value;
      && r.state == s.(items := r.state.items)
      && r.state.items.Keys == s.items.Keys
      && (forall k :: k in s.items && k != id ==> r.state.items[k] == s.items[k])
      && r.result == Ok(Some(r.state.items[id]))
      && r.state.items[id].status == e.status.value
      && r.state.items[id].completedBy == Some(e.completedBy.value)
      && r.state.items[id].lastModifiedBy == Some(e.editedBy.value)
      && r.state.items[id].completionDate == Some(now)
      && r.state.items[id].lastModifiedOn == now
      && r.state.items[id].title == s.items[id].title
      && r.state.items[id].listId == s.items[id].listId
      && r.state.items[id].parent == s.items[id].parent
      && r.state.items[id].addedOn == s.items[id].addedOn
      && r.state.items[id].creator == s.items[id].creator
      && r.state.items[id].creatorName == s.items[id].creatorName
  {
    if !StatusValid(e) then Reply(s, Err("IC-UIS-1"))
    else if fails then Reply(s, Err("IC-UIS-2"))
    else if e.id.value !in s.items then Reply(s, Ok(None))
    else
      var id := e.id.value;
      var it := s.items[id].(
        status := e.status.value, completedBy := Some(e.completedBy.value), completionDate := Some(now),
        lastModifiedBy := Some(e.editedBy.value), lastModifiedOn := now);
      Reply(s.(items := s.items[id := it]), Ok(Some(it)))
  }

  /** The top-level items of a list. */
  function TopLevel(items: map<Id, Item>, listId: Id): set<Id> {
    set k | k in items && items[k].listId == listId && items[k].parent == listId
  }

  /** The items of a list hanging under one of `tops`. */
  function SubItemsOf(items: map<Id, Item>, listId: Id, tops: seq<Id>): set<Id> {
    set k | k in items && items[k].listId == listId && items[k].parent in tops
  }

  /** The answer of the item query. */
  datatype ItemPage = ItemPage(items: seq<Id>, subItems: set<Id>)

  /** `page` is a correct answer for list `listId` with `limit` top-level slots:
      the `limit` latest top-level items (all of them when fewer), newest first,
      each once, and exactly the sub-items of those. */
  predicate IsPage(items: map<Id, Item>, listId: Id, limit: nat, page: ItemPage) {
    var top := TopLevel(items, listId);
    && |page.items| == (if |top| < limit then |top| else limit)
    && (forall i :: 0 <= i < |page.items| ==> page.items[i] in top)
    && Distinct(page.items)
    && (forall i, j :: 0 <= i < j < |page.items| ==> items[page.items[j]].addedOn <= items[page.items[i]].addedOn)
    && (forall k, i :: k in top && k !in page.items && 0 <= i < |page.items| ==>
          items[k].addedOn <= items[page.items[i]].addedOn)
    && page.subItems == SubItemsOf(items, listId, page.items)
  }

  /** The two queries: top-level items sorted by `addedOn` descending and cut to
      `limit`, then the sub-items of exactly those. Among items with equal dates
      any order may come back. */
  method QueryPage(items: map<Id, Item>, listId: Id, limit: nat) returns (page: ItemPage)
    ensures IsPage(items, listId, limit, page)
  {
    var rest := TopLevel(items, listId);
    ghost var top := rest;
    var dates := map k | k in items :: items[k].addedOn;
    var ids: seq<Id> := [];
    while |ids| < limit && rest != {}
      invariant rest <= top
      invariant |ids| <= limit
      invariant |ids| + |rest| == |top|
      invariant forall k :: k in top ==> k in rest || k in ids
      invariant forall i :: 0 <= i < |ids| ==> ids[i] in top && ids[i] !in rest
      invariant Distinct(ids)
      invariant forall i, j :: 0 <= i < j < |ids| ==> items[ids[j]].addedOn <= items[ids[i]].addedOn
      invariant forall k, i :: k in rest && 0 <= i < |ids| ==> items[k].addedOn <= items[ids[i]].addedOn
      decreases rest
    {
      var latest := ArgMax(dates, rest);
      ids := ids + [latest];
      rest := rest - {latest};
    }
    page := ItemPage(ids, SubItemsOf(items, listId, ids));
  }

  /** The answer of the item query handler, or no answer at all. */
  datatype PageResponse = Sent(result: Result<ItemPage>) | Unanswered

  predicate QueryValid(listId: Option<Id>, itemsToSkip: Option<nat>) {
    Supplied(listId) && itemsToSkip.Some?
  }

  /** `getItemsByListId` as written: the top-level query's failure is reported
      (IC-GIBLI-2), but the sub-item query's promise has no handler, so when it
      fails no response is ever sent. No items are skipped; the limit is
      `itemsToSkip + 10`. */
  method GetItemsByListIdAsWritten(items: map<Id, Item>, listId: Option<Id>, itemsToSkip: Option<nat>, topFails: bool, subFails: bool)
    returns (r: PageResponse)
    ensures !QueryValid(listId, itemsToSkip) ==> r == Sent(Err("IC-GIBLI-1"))
    ensures QueryValid(listId, itemsToSkip) && topFails ==> r == Sent(Err("IC-GIBLI-2"))
    ensures QueryValid(listId, itemsToSkip) && !topFails && subFails ==> r == Unanswered
    ensures QueryValid(listId, itemsToSkip) && !topFails && !subFails ==>
      r.Sent? && r.result.Ok? && IsPage(items, listId.value, itemsToSkip.value + 10, r.result.value)
  {
    if !QueryValid(listId, itemsToSkip) {
      return Sent(Err("IC-GIBLI-1"));
    }
    if topFails {
      return Sent(Err("IC-GIBLI-2"));
    }
    var page := QueryPage(items, listId.value, itemsToSkip.value + 10);
    if subFails {
      return Unanswered;
    }
    return Sent(Ok(page));
  }

  /** `getItemsByListId` with the sub-item query's failure reported like the
      top-level one's: every request is answered. */
  method GetItemsByListId(items: map<Id, Item>, listId: Option<Id>, itemsToSkip: Option<nat>, topFails: bool, subFails: bool)
    returns (r: Result<ItemPage>)
    ensures !QueryValid(listId, itemsToSkip) ==> r == Err("IC-GIBLI-1")
    ensures QueryValid(listId, itemsToSkip) && (topFails || subFails) ==> r == Err("IC-GIBLI-2")
    ensures QueryValid(listId, itemsToSkip) && !topFails && !subFails ==>
      r.Ok? && IsPage(items, listId.value, itemsToSkip.value + 10, r.value)
  {
    if !QueryValid(listId, itemsToSkip) {
      return Err("IC-GIBLI-1");
    }
    if topFails {
      return Err("IC-GIBLI-2");
    }
    var page := QueryPage(items, listId.value, itemsToSkip.value + 10);
    if subFails {
      return Err("IC-GIBLI-2");
    }
    return Ok(page);
  }

  /** A created item without a parent is a top-level item of its list. */
  lemma CreatedWithoutParentIsTopLevel(s: Store, caller: Id, callerFirstName: string, input: NewItem, freshId: Id, now: Time)
    requires CreateValid(input) && !Supplied(input.parent) && ChosenId(input, freshId) !in s.items
    ensures var r := CreateItem(s, caller, callerFirstName, input, freshId, now, false);
      ChosenId(input, freshId) in TopLevel(r.state.items, input.listId.value)
  {
  }
}

=== FILE: lists.dfy ===
/**
 * The list handlers: create, the owner's and the friends' list queries, delete
 * (without touching the list's items), edit, and completion.
 */
module Lists {
  import opened Wrappers
  import opened Documents

  /** A list as the queries send it back, with the owner's first name. */
  datatype ListView = ListView(list: TodoList, creatorName: string)

  /** Body of a create request. */
  datatype NewList = NewList(title: Option<string>, description: Option<string>)

  /** `createList`: title and description are required (LC-CL-1); the list
      belongs to the caller and starts open; a failed save, including one under
      an id already in use, reports LC-CL-2. */
  function CreateList(s: Store, caller: Id, input: NewList, freshId: Id, now: Time, saveFails: bool): (r: Reply<Store, Id>)
    ensures !(Supplied(input.title) && Supplied(input.description)) ==> r == Reply(s, Err("LC-CL-1"))
    ensures Supplied(input.title) && Supplied(input.description) && (saveFails || freshId in s.lists) ==>
      r == Reply(s, Err("LC-CL-2"))
    ensures Supplied(input.title) && Supplied(input.description) && !saveFails && freshId !in s.lists ==>
      r.result.Ok?
    ensures r.result.Err? ==> r.state == s
    ensures r.result.Ok? ==>
      && r.result.value == freshId
      && freshId !in s.lists
      && r.state == s.(lists := r.state.lists)
      && r.state.lists.Keys == s.lists.Keys + {freshId}
      && (forall k :: k in s.lists ==> r.state.lists[k] == s.lists[k])
      && r.state.lists[freshId].owner == caller
      && r.state.lists[freshId].status == "open"
      && r.state.lists[freshId].title == input.title.value
      && r.state.lists[freshId].description == input.description.value
      && r.state.lists[freshId].createdDate == now
      && r.state.lists[freshId].lastModifiedOn.None?
      && r.state.lists[freshId].completionDate.None?
  {
    if !(Supplied(input.title) && Supplied(input.description)) then Reply(s, Err("LC-CL-1"))
    else if saveFails || freshId in s.lists then Reply(s, Err("LC-CL-2"))
    else
      var l := TodoList(input.title.value, input.description.value, caller, now, None, "open", None, None, None, None);
      Reply(s.(lists := s.lists[freshId := l]), Ok(freshId))
  }

  /** `getOwnLists`: exactly the caller's lists, named with the caller's first
      name; a failing query reports LC-GOL-1. */
  function GetOwnLists(s: Store, caller: Id, callerFirstName: string, queryFails: bool): (r: Result<map<Id, ListView>>)
    ensures queryFails <==> r == Err("LC-GOL-1")
    ensures !queryFails ==> r.Ok?
    ensures r.Ok? ==> forall k :: k in r.value <==> k in s.lists && s.lists[k].owner == caller
    ensures r.Ok? ==> forall k :: k in r.value ==> r.value[k] == ListView(s.lists[k], callerFirstName)
  {
    if queryFails then Err("LC-GOL-1")
    else Ok(map k | k in s.lists && s.lists[k].owner == caller :: ListView(s.lists[k], callerFirstName))
  }

  /** A list the caller just created is among the caller's own lists. */
  lemma CreatedListIsOwn(s: Store, caller: Id, callerFirstName: string, input: NewList, freshId: Id, now: Time)
    requires Supplied(input.title) && Supplied(input.description) && freshId !in s.lists
    ensures var created := CreateList(s, caller, input, freshId, now, false);
      var own := GetOwnLists(created.state, caller, callerFirstName, false);
      own.Ok? && freshId in own.value
  {
  }

  /** Ids of the lists owned by one of `friends`. */
  function FriendListIds(lists: map<Id, TodoList>, friends: seq<Id>): set<Id> {
    set k | k in lists && lists[k].owner in friends
  }

  /** `getFriendsLists`: `friends` must be an array (LC-GFL-1); a failing list
      query reports LC-GFL-3 and a failing user query LC-GFL-1. Each found list
      is named with its owner's first name; a list whose owner has no user
      document makes the handler read a missing user, which it reports as
      LC-GFL-1. */
  function GetFriendsLists(s: Store, friends: Option<seq<Id>>, listFails: bool, userFails: bool): (r: Result<map<Id, ListView>>)
    ensures friends.None? ==> r == Err("LC-GFL-1")
    ensures friends.Some? && listFails ==> r == Err("LC-GFL-3")
    ensures friends.Some? && !listFails && userFails ==> r == Err("LC-GFL-1")
    ensures friends.Some? && !listFails && !userFails ==>
      (r.Ok? <==> forall k :: k in s.lists && s.lists[k].owner in friends.value ==> s.lists[k].owner in s.users)
    ensures r.Ok? ==> forall k :: k in r.value <==> k in s.lists && s.lists[k].owner in friends.value
    ensures r.Ok? ==> forall k :: k in r.value ==>
      && r.value[k].list == s.lists[k]
      && s.lists[k].owner in s.users
      && r.value[k].creatorName == s.users[s.lists[k].owner].firstName
  {
    if friends.None? then Err("LC-GFL-1")
    else if listFails then Err("LC-GFL-3")
    else if userFails then Err("LC-GFL-1")
    else
      var found := FriendListIds(s.lists, friends.value);
      if exists k :: k in found && s.lists[k].owner !in s.users then Err("LC-GFL-1")
      else Ok(map k | k in found :: ListView(s.lists[k], s.users[s.lists[k].owner].firstName))
  }

  /** `deleteListById`: removes that list only; items of the list stay. */
  function DeleteListById(s: Store, id: Option<Id>, fails: bool): (r: Reply<Store, ()>)
    ensures !Supplied(id) ==> r == Reply(s, Err("LC-DLBI-1"))
    ensures Supplied(id) && fails ==> r == Reply(s, Err("LC-DLBI-2"))
    ensures Supplied(id) && !fails ==> r.result.Ok? && r.state.lists.Keys == s.lists.Keys - {id.value}
    ensures forall k :: k in r.state.lists ==> k in s.lists && r.state.lists[k] == s.lists[k]
    ensures r.state.items == s.items && r.state == s.(lists := r.state.lists)
  {
    if !Supplied(id) then Reply(s, Err("LC-DLBI-1"))
    else if fails then Reply(s, Err("LC-DLBI-2"))
    else Reply(s.(lists := s.lists - {id.value}), Ok(()))
  }

  /** Creating a list and deleting it again restores the store. */
  lemma DeleteUndoesCreateList(s: Store, caller: Id, input: NewList, freshId: Id, now: Time)
    requires Supplied(input.title) && Supplied(input.description) && freshId !in s.lists && freshId != ""
    ensures DeleteListById(CreateList(s, caller, input, freshId, now, false).state, Some(freshId), false).state == s
  {
    var created := CreateList(s, caller, input, freshId, now, false);
    assert DeleteListById(created.state, Some(freshId), false).state.lists == s.lists;
  }

  /** Body of an edit request. */
  datatype ListEdit = ListEdit(
    id: Option<Id>,
    title: string,
    description: string,
    lastModifiedBy: Option<Id>,
    lastModifiedByName: Option<string>)

  /** `updateListById`: overwrites title, description and the last-modified
      fields; owner and status stay. A missing list makes the handler read a
      null document, which it reports like a failed write (LC-ULBI-3). */
  function UpdateListById(s: Store, e: ListEdit, now: Time, fails: bool): (r: Reply<Store, TodoList>)
    ensures !Supplied(e.id) ==> r == Reply(s, Err("LC-ULBI-1"))
    ensures Supplied(e.id) && (fails || e.id.value !in s.lists) ==> r == Reply(s, Err("LC-ULBI-3"))
    ensures Supplied(e.id) && !fails && e.id.value in s.lists ==>
      var id := e.id.value;
      && r.state == s.(lists := r.state.lists)
      && r.state.lists.Keys == s.lists.Keys
      && (forall k :: k in s.lists && k != id ==> r.state.lists[k] == s.lists[k])
      && r.result == Ok(r.state.lists[id])
      && r.state.lists[id].title == e.title
      && r.state.lists[id].description == e.description
      && r.state.lists[id].lastModifiedOn == Some(now)
      && r.state.lists[id].lastModifiedBy == e.lastModifiedBy
      && r.state.lists[id].lastModifiedByName == e.lastModifiedByName
      && r.state.lists[id].owner == s.lists[id].owner
      && r.state.lists[id].status == s.lists[id].status
      && r.state.lists[id].createdDate == s.lists[id].createdDate
      && r.state.lists[id].completedByName == s.lists[id].completedByName
      && r.state.lists[id].completionDate == s.lists[id].completionDate
  {
    if !Supplied(e.id) then Reply(s, Err("LC-ULBI-1"))
    else if fails || e.id.value !in s.lists then Reply(s, Err("LC-ULBI-3"))
    else
      var id := e.id.value;
      var l := s.lists[id].(
        title := e.title, description := e.description, lastModifiedOn := Some(now),
        lastModifiedBy := e.lastModifiedBy, lastModifiedByName := e.lastModifiedByName);
      Reply(s.(lists := s.lists[id := l]), Ok(l))
  }

  /** `updateListStatusById`: marks the list done and records who completed it
      and when; a missing list is answered with no data. */
  function UpdateListStatusById(s: Store, id: Option<Id>, completedByName: Option<string>, now: Time, fails: bool): (r: Reply<Store, Option<TodoList>>)
    ensures !(Supplied(id) && Supplied(completedByName)) ==> r == Reply(s, Err("LC-ULSBI-1"))
    ensures Supplied(id) && Supplied(completedByName) && fails ==> r == Reply(s, Err("LC-ULSBI-2"))
    ensures Supplied(id) && Supplied(completedByName) && !fails && id.value !in s.lists ==> r == Reply(s, Ok(None))
    ensures Supplied(id) && Supplied(completedByName) && !fails && id.value in s.lists ==>
      && r.state == s.(lists := r.state.lists)
      && r.state.lists.Keys == s.lists.Keys
      && (forall k :: k in s.lists && k != id.value ==> r.state.lists[k] == s.lists[k])
      && r.result == Ok(Some(r.state.lists[id.value]))
      && r.state.lists[id.value].status == "done"
      && r.state.lists[id.value].completedByName == completedByName
      && r.state.lists[id.value].completionDate == Some(now)
      && r.state.lists[id.value].title == s.lists[id.value].title
      && r.state.lists[id.value].description == s.lists[id.value].description
      && r.state.lists[id.value].owner == s.lists[id.value].owner
      && r.state.lists[id.value].createdDate == s.lists[id.value].createdDate
      && r.state.lists[id.value].lastModifiedOn == s.lists[id.value].lastModifiedOn
      && r.state.lists[id.value].lastModifiedBy == s.lists[id.value].lastModifiedBy
      && r.state.lists[id.value].lastModifiedByName == s.lists[id.value].lastModifiedByName
  {
    if !(Supplied(id) && Supplied(completedByName)) then Reply(s, Err("LC-ULSBI-1"))
    else if fails then Reply(s, Err("LC-ULSBI-2"))
    else if id.value !in s.lists then Reply(s, Ok(None))
    else
      var l := s.lists[id.value].(status := "done", completionDate := Some(now), completedByName := completedByName);
      Reply(s.(lists := s.lists[id.value := l]), Ok(Some(l)))
  }

  /** Completing a list twice leaves it done; the second call only moves the
      completion date and name. */
  lemma CompletionIsIdempotent(s: Store, id: Id, name1: string, name2: string, now1: Time, now2: Time)
    requires id != "" && name1 != "" && name2 != "" && id in s.lists
    ensures var once := UpdateListStatusById(s, Some(id), Some(name1), now1, false).state;
      var twice := UpdateListStatusById(once, Some(id), Some(name2), now2, false).state;
      && twice.lists[id].status == "done"
      && twice.lists[id] == once.lists[id].(completionDate := Some(now2), completedByName := Some(name2))
      && twice.lists.Keys == s.lists.Keys
  {
  }
}

=== FILE: presence.dfy ===
/**
 * The process-wide online list of the realtime server: one `{userId, fullName}`
 * entry is pushed per successful authentication, and a disconnect splices out
 * the first entry of the connection's user.
 */
module Presence {
  import opened Wrappers
  import opened Documents
  import opened Collections

  /** One row of the online list. */
  datatype Entry = Entry(userId: Id, fullName: string)

  /** The display name: first and last name joined by one space. */
  function FullName(firstName: string, lastName: string): string {
    firstName + " " + lastName
  }

  /** Registration after a successful token check: the entry is pushed with no
      de-duplication by user id. */
  function Register(online: seq<Entry>, userId: Id, firstName: string, lastName: string): (r: seq<Entry>)
    ensures |r| == |online| + 1
    ensures r[..|online|] == online
    ensures r[|online|].userId == userId && r[|online|].fullName == firstName + " " + lastName
  {
    online + [Entry(userId, FullName(firstName, lastName))]
  }

  /** `findIndex` on the user id: the first position holding `userId`, or -1. */
  function FindIndex(online: seq<Entry>, userId: Id): (r: int)
    ensures -1 <= r < |online|
    ensures r >= 0 ==> online[r].userId == userId
    ensures r >= 0 ==> forall j :: 0 <= j < r ==> online[j].userId != userId
    ensures r == -1 <==> forall j :: 0 <= j < |online| ==> online[j].userId != userId
  {
    if |online| == 0 then -1
    else if online[0].userId == userId then 0
    else
      var k := FindIndex(online[1..], userId);
      if k < 0 then -1 else k + 1
  }

  /** Disconnect: removes the first entry of the connection's user. A connection
      that never authenticated has no user id and matches nothing. */
  function Deregister(online: seq<Entry>, userId: Option<Id>): (r: seq<Entry>)
    ensures userId.None? ==> r == online
    ensures userId.Some? && (forall j :: 0 <= j < |online| ==> online[j].userId != userId.value) ==> r == online
    ensures |online| - 1 <= |r| <= |online|
    ensures multiset(r) <= multiset(online)
  {
    if userId.None? then online
    else
      var i := FindIndex(online, userId.value);
      if i < 0 then online
      else
        assert online == online[..i] + [online[i]] + online[i + 1..];
        online[..i] + online[i + 1..]
  }

  /** The user ids of the list, in list order. */
  function UserIds(online: seq<Entry>): (r: seq<Id>)
    ensures |r| == |online|
    ensures forall j :: 0 <= j < |online| ==> r[j] == online[j].userId
  {
    seq(|online|, j requires 0 <= j < |online| => online[j].userId)
  }

  /** The entry a disconnect removes is the user's first one: every entry
      before it and every entry after it stays, in place. */
  lemma DeregisterSplicesFirstMatch(online: seq<Entry>, userId: Id, i: nat)
    requires i < |online| && online[i].userId == userId
    requires forall j :: 0 <= j < i ==> online[j].userId != userId
    ensures Deregister(online, Some(userId)) == online[..i] + online[i + 1..]
  {
    var k := FindIndex(online, userId);
    assert k == i;
  }

  /** Number of entries of one user. */
  function CountUser(online: seq<Entry>, userId: Id): nat {
    Count(UserIds(online), userId)
  }

  /** The entries of every other user, in list order. */
  function Others(online: seq<Entry>, userId: Id): seq<Entry> {
    if |online| == 0 then []
    else (if online[0].userId == userId then [] else [online[0]]) + Others(online[1..], userId)
  }

  lemma CountUserAppend(a: seq<Entry>, b: seq<Entry>, userId: Id)
    ensures CountUser(a + b, userId) == CountUser(a, userId) + CountUser(b, userId)
  {
    assert UserIds(a + b) == UserIds(a) + UserIds(b);
    CountAppend(UserIds(a), UserIds(b), userId);
  }

  lemma {:induction false} OthersAppend(a: seq<Entry>, b: seq<Entry>, userId: Id)
    ensures Others(a + b, userId) == Others(a, userId) + Others(b, userId)
  {
    if |a| == 0 {
      assert a + b == b;
    } else {
      assert (a + b)[1..] == a[1..] + b;
      OthersAppend(a[1..], b, userId);
    }
  }

  lemma CountUserSingle(e: Entry, userId: Id)
    ensures CountUser([e], userId) == if e.userId == userId then 1 else 0
  {
    var ids := [e.userId];
    assert UserIds([e]) == ids;
    assert ids[1..] == [];
    assert Count(ids, userId) == (if e.userId == userId then 1 else 0) + Count(ids[1..], userId);
  }

  lemma CountUserZero(online: seq<Entry>, userId: Id)
    ensures CountUser(online, userId) == 0 <==> forall j :: 0 <= j < |online| ==> online[j].userId != userId
  {
    var ids := UserIds(online);
    if userId in ids {
      CountPresent(ids, userId);
    } else {
      CountAbsent(ids, userId);
    }
  }

  /** The entries before the first match of `userId` hold none of its entries. */
  lemma PrefixBeforeFirst(online: seq<Entry>, userId: Id, i: nat)
    requires i <= |online|
    requires forall j :: 0 <= j < i ==> online[j].userId != userId
    ensures CountUser(online[..i], userId) == 0
    ensures Others(online[..i], userId) == online[..i]
  {
    var prefix := online[..i];
    assert forall j :: 0 <= j < |prefix| ==> prefix[j].userId != userId;
    CountUserZero(prefix, userId);
    NoMatchOthers(prefix, userId);
  }

  lemma {:induction false} NoMatchOthers(online: seq<Entry>, userId: Id)
    requires forall j :: 0 <= j < |online| ==> online[j].userId != userId
    ensures Others(online, userId) == online
  {
    if |online| > 0 {
      assert forall j :: 0 <= j < |online[1..]| ==> online[1..][j] == online[j + 1];
      NoMatchOthers(online[1..], userId);
    }
  }

  /** Authenticating the same user twice leaves two more entries of that user:
      registration never de-duplicates. */
  lemma {:induction false} RegisterDoesNotDeduplicate(online: seq<Entry>, userId: Id, first1: string, last1: string, first2: string, last2: string)
    ensures CountUser(Register(Register(online, userId, first1, last1), userId, first2, last2), userId)
         == CountUser(online, userId) + 2
  {
    var e1, e2 := Entry(userId, FullName(first1, last1)), Entry(userId, FullName(first2, last2));
    var once := Register(online, userId, first1, last1);
    CountUserAppend(online, [e1], userId);
    CountUserSingle(e1, userId);
    CountUserAppend(once, [e2], userId);
    CountUserSingle(e2, userId);
  }

  /** A disconnect removes exactly one entry of the user when there is one, and
      none otherwise. */
  lemma {:induction false} DeregisterRemovesOneEntry(online: seq<Entry>, userId: Id)
    ensures CountUser(Deregister(online, Some(userId)), userId)
         == if CountUser(online, userId) == 0 then 0 else CountUser(online, userId) - 1
  {
    var i := FindIndex(online, userId);
    if i < 0 {
      CountUserZero(online, userId);
    } else {
      var a, e, b := online[..i], online[i], online[i + 1..];
      assert online == a + [e] + b;
      PrefixBeforeFirst(online, userId, i);
      CountUserSingle(e, userId);
      CountUserAppend(a + [e], b, userId);
      CountUserAppend(a, [e], userId);
      CountUserAppend(a, b, userId);
      assert Deregister(online, Some(userId)) == a + b;
    }
  }

  /** A disconnect leaves the entries of every other user in their relative order. */
  lemma {:induction false} DeregisterKeepsOthersInOrder(online: seq<Entry>, userId: Id)
    ensures Others(Deregister(online, Some(userId)), userId) == Others(online, userId)
  {
    var i := FindIndex(online, userId);
    if i >= 0 {
      var a, e, b := online[..i], online[i], online[i + 1..];
      assert online == a + [e] + b;
      PrefixBeforeFirst(online, userId, i);
      assert Others([e], userId) == [] by {
        assert [e][1..] == [];
      }
      OthersAppend(a + [e], b, userId);
      OthersAppend(a, [e], userId);
      assert Others(a + [e], userId) == Others(a, userId);
      OthersAppend(a, b, userId);
      assert Deregister(online, Some(userId)) == a + b;
    }
  }

  /** A user with no entry who registers and then disconnects leaves the list as
      it was. */
  lemma {:induction false} DeregisterUndoesRegister(online: seq<Entry>, userId: Id, firstName: string, lastName: string)
    requires CountUser(online, userId) == 0
    ensures Deregister(Register(online, userId, firstName, lastName), Some(userId)) == online
  {
    CountUserZero(online, userId);
    var r := Register(online, userId, firstName, lastName);
    assert forall j :: 0 <= j < |online| ==> r[j] == online[j];
    var i := FindIndex(r, userId);
    assert i == |online|;
    assert r[..i] == online;
  }
}

=== FILE: rooms.dfy ===
/**
 * Room membership of realtime connections and the connections a
 * `socket.broadcast.to(...)` emission reaches.
 */
module Rooms {
  import opened Wrappers
  import opened Documents

  /** Transport-assigned connection (socket) id. */
  type ConnId = string

  /** A live connection: the user it authenticated as, if any, and its rooms. */
  datatype Conn = Conn(userId: Option<Id>, rooms: set<Id>)

  /** `socket.join(i)` for each id of `ids` in turn. */
  function JoinAll(rooms: set<Id>, ids: seq<Id>): (r: set<Id>)
    ensures forall i :: i in r <==> i in rooms || i in ids
    decreases |ids|
  {
    if |ids| == 0 then rooms
    else JoinAll(rooms + {ids[0]}, ids[1..])
  }

  /** The `setFriends` handler: joins the room of every given friend id; an
      empty array joins nothing. */
  function SetFriends(c: Conn, friendIds: seq<Id>): (r: Conn)
    ensures r.userId == c.userId
    ensures forall i :: i in r.rooms <==> i in c.rooms || i in friendIds
    ensures |friendIds| == 0 ==> r == c
  {
    if |friendIds| > 0 then c.(rooms := JoinAll(c.rooms, friendIds)) else c
  }

  /** The connections reached by `socket.broadcast.to(t1).to(t2)...emit(...)`:
      every member of some target room except the sending connection. */
  function Recipients(conns: map<ConnId, Conn>, sender: ConnId, targets: set<Id>): (r: set<ConnId>)
    ensures r <= conns.Keys - {sender}
    ensures targets == {} ==> r == {}
  {
    set c | c in conns && c != sender && conns[c].rooms * targets != {}
  }

  /** A broadcast never reaches its sender, reaches every other member of a
      target room, and nobody else. */
  lemma RecipientsAreOtherMembers(conns: map<ConnId, Conn>, sender: ConnId, targets: set<Id>, d: ConnId)
    ensures sender !in Recipients(conns, sender, targets)
    ensures d in Recipients(conns, sender, targets)
        <==> d in conns && d != sender && exists t :: t in targets && t in conns[d].rooms
  {
    if d in conns && d != sender {
      if exists t :: t in targets && t in conns[d].rooms {
        var t :| t in targets && t in conns[d].rooms;
        assert t in conns[d].rooms * targets;
      }
    }
  }

  /** Chaining `.to(a).to(b)` reaches the union of both rooms' recipients, so a
      connection in both rooms is reached once. */
  lemma ChainedRoomsUnion(conns: map<ConnId, Conn>, sender: ConnId, a: set<Id>, b: set<Id>)
    ensures Recipients(conns, sender, a + b) == Recipients(conns, sender, a) + Recipients(conns, sender, b)
  {
    forall d | d in conns
      ensures conns[d].rooms * (a + b) != {} <==> conns[d].rooms * a != {} || conns[d].rooms * b != {}
    {
      if conns[d].rooms * (a + b) != {} {
        var t :| t in conns[d].rooms * (a + b);
        assert t in conns[d].rooms * a || t in conns[d].rooms * b;
      }
    }
  }
}

=== FILE: socket.dfy ===
/**
 * The realtime server: each socket event of one connection is one atomic step
 * over the online list, the connections' rooms and the document store, and
 * yields the emissions it sends.
 */
module Socket {
  import opened Wrappers
  import opened Documents
  import opened Presence
  import opened Rooms
  import opened FriendRequests
  import opened HistoryLog

  /** What a successful token verification yields. */
  datatype Claims = Claims(id: Id, firstName: string, lastName: string)

  /** The list and item events that are only relayed to a room. */
  datatype RelayKind = AddList | EditList | DeleteList | AddItem | EditItem | DeleteItem | UpdateItemStatus

  /** The event name a relayed event is re-emitted under. */
  function RelayedEvent(k: RelayKind): string {
    match k
    case AddList => "listCreated"
    case EditList => "listEdited"
    case DeleteList => "listDeleted"
    case AddItem => "itemAdded"
    case EditItem => "itemEdited"
    case DeleteItem => "itemDeleted"
    case UpdateItemStatus => "itemStatusUpdated"
  }

  /** The events a connection can raise. The outcome of token verification is
      part of `OnSetUser`: `None` when the token was rejected. */
  datatype Event =
    | OnConnect
    | OnSetUser(verified: Option<Claims>)
    | OnSetFriends(friendIds: seq<Id>)
    | OnGetOnlineUsers
    | OnSendFriendRequest(request: RequestInput)
    | OnAcceptFriendRequest(requestId: Id, request: RequestInput)
    | OnRelay(kind: RelayKind, room: Id, data: string)
    | OnTrackItemHistory(room: Id, record: HistoryInput)
    | OnUndoLastAction(room: Id, recordId: Id)
    | OnDisconnect

  datatype Payload =
    | Text(text: string)
    | OnlineUsers(entries: seq<Entry>)
    | AuthFailed(status: int, error: string)
    | RequestData(request: RequestInput)
    | AcceptData(requestId: Id, request: RequestInput)

  /** One `emit`: the connections it reaches, the event name and the payload. */
  datatype Emission = Emission(to: set<ConnId>, event: string, payload: Payload)

  datatype Server = Server(online: seq<Entry>, conns: map<ConnId, Conn>, store: Store)

  /** Inputs from outside the handler: a fresh document id, the clock, and which
      store writes fail. */
  datatype Env = Env(freshId: Id, now: Time, faults: Faults)

  datatype Step = Step(server: Server, out: seq<Emission>)

  /** An event may arrive on connection `c`: `OnConnect` for a new connection,
      everything else on a live one. */
  predicate Arrives(s: Server, c: ConnId, ev: Event) {
    ev.OnConnect? <==> c !in s.conns
  }

  /** The server's reaction to event `ev` on connection `c`. Every emission
      reaches only connections that are live after the step, and the
      connection stays live until it disconnects. */
  function Handle(s: Server, c: ConnId, ev: Event, env: Env): (r: Step)
    requires Arrives(s, c, ev)
    ensures forall e :: e in r.out ==> e.to <= r.server.conns.Keys
    ensures c in r.server.conns <==> !ev.OnDisconnect?
    ensures r.server.conns.Keys - {c} == s.conns.Keys - {c}
  {
    match ev
    case OnConnect =>
      Step(s.(conns := s.conns[c := Conn(None, {})]), [Emission({c}, "verifyUser", Text(""))])
    case OnSetUser(verified) =>
      if verified.None? then
        Step(s, [Emission({c}, "auth-error", AuthFailed(500, "Auth failed!!!"))])
      else
        var u := verified.value;
        var online := Register(s.online, u.id, u.firstName, u.lastName);
        var conns := s.conns[c := Conn(Some(u.id), s.conns[c].rooms + {u.id})];
        Step(s.(online := online, conns := conns), [Emission(conns.Keys, "onlineUserList", OnlineUsers(online))])
    case OnSetFriends(ids) =>
      Step(s.(conns := s.conns[c := SetFriends(s.conns[c], ids)]), [])
    case OnGetOnlineUsers =>
      Step(s, [Emission({c}, "onlineUserList", OnlineUsers(s.online))])
    case OnSendFriendRequest(r) =>
      Step(s.(store := SendRequest(s.store, r, env.freshId, env.now, env.faults)),
           [Emission(Recipients(s.conns, c, {r.receiverId}), "receivedFriendRequest", RequestData(r)),
            Emission(Recipients(s.conns, c, {r.receiverId, r.requesterId}), "notificationAlert", Text(""))])
    case OnAcceptFriendRequest(id, r) =>
      Step(s.(store := UpdateRequest(s.store, id, r, env.now, env.faults)),
           [Emission(Recipients(s.conns, c, {r.requesterId}), "acceptedFriendRequest", AcceptData(id, r)),
            Emission(Recipients(s.conns, c, {r.receiverId, r.requesterId}), "notificationAlert", Text(""))])
    case OnRelay(kind, room, data) =>
      Step(s, [Emission(Recipients(s.conns, c, {room}), RelayedEvent(kind), Text(data))])
    case OnTrackItemHistory(_, d) =>
      var h := TrackItemHistory(s.store.history, d, env.freshId, env.now, env.faults.primary);
      Step(s.(store := s.store.(history := h)), [])
    case OnUndoLastAction(_, id) =>
      var h := DeleteLastAction(s.store.history, id, env.faults.primary);
      Step(s.(store := s.store.(history := h)), [])
    case OnDisconnect =>
      var online := Deregister(s.online, s.conns[c].userId);
      var conns := s.conns - {c};
      Step(s.(online := online, conns := conns), [Emission(conns.Keys, "onlineUserList", OnlineUsers(online))])
  }

  /** Every authenticated connection is in the room named by its own user id. */
  predicate OwnRoomJoined(s: Server) {
    forall c :: c in s.conns && s.conns[c].userId.Some? ==> s.conns[c].userId.value in s.conns[c].rooms
  }

  lemma HandleKeepsOwnRoomJoined(s: Server, c: ConnId, ev: Event, env: Env)
    requires Arrives(s, c, ev) && OwnRoomJoined(s)
    ensures OwnRoomJoined(Handle(s, c, ev, env).server)
  {
  }

  /** No event takes a friend request back from Accepted to Pending. */
  lemma HandleNeverRevertsStatus(s: Server, c: ConnId, ev: Event, env: Env)
    requires Arrives(s, c, ev)
    ensures StatusMonotone(s.store.requests, Handle(s, c, ev, env).server.store.requests)
  {
    match ev
    case OnSendFriendRequest(r) => SendRequestKeepsStatuses(s.store, r, env.freshId, env.now, env.faults);
    case OnAcceptFriendRequest(id, r) => UpdateRequestKeepsStatuses(s.store, id, r, env.now, env.faults);
    case _ =>
  }

  /** A rejected token changes nothing and only tells that connection. */
  lemma AuthFailureChangesNothing(s: Server, c: ConnId, env: Env)
    requires c in s.conns
    ensures var step := Handle(s, c, OnSetUser(None), env);
      && step.server == s
      && |step.out| == 1
      && step.out[0].to == {c}
      && step.out[0].event == "auth-error"
  {
  }

  /** A verified token joins the user's own room, appends exactly one entry
      with the full name, and sends the new list to every connection. */
  lemma AuthSuccessRegistersOnce(s: Server, c: ConnId, u: Claims, env: Env)
    requires c in s.conns
    ensures var step := Handle(s, c, OnSetUser(Some(u)), env);
      && step.server.online == s.online + [Entry(u.id, u.firstName + " " + u.lastName)]
      && step.server.conns[c].userId == Some(u.id)
      && step.server.conns[c].rooms == s.conns[c].rooms + {u.id}
      && step.server.store == s.store
      && |step.out| == 1
      && step.out[0].to == s.conns.Keys
      && step.out[0].event == "onlineUserList"
      && step.out[0].payload == OnlineUsers(step.server.online)
      && forall d :: d in s.conns && d != c ==> step.server.conns[d] == s.conns[d]
  {
  }

  /** A new connection is registered with no user and no rooms, and is asked to
      verify itself; nothing else changes. */
  lemma ConnectAsksForVerification(s: Server, c: ConnId, env: Env)
    requires c !in s.conns
    ensures var step := Handle(s, c, OnConnect, env);
      && step.server.online == s.online && step.server.store == s.store
      && step.server.conns.Keys == s.conns.Keys + {c}
      && step.server.conns[c] == Conn(None, {})
      && (forall d :: d in s.conns ==> step.server.conns[d] == s.conns[d])
      && step.out == [Emission({c}, "verifyUser", Text(""))]
  {
  }

  /** `getOnlineUsers` answers the asking connection alone with the current
      list and changes nothing. */
  lemma OnlineUsersGoOnlyToCaller(s: Server, c: ConnId, env: Env)
    requires c in s.conns
    ensures var step := Handle(s, c, OnGetOnlineUsers, env);
      && step.server == s
      && step.out == [Emission({c}, "onlineUserList", OnlineUsers(s.online))]
  {
  }

  /** `setFriends` joins the given rooms on that connection only and sends
      nothing. */
  lemma SetFriendsTouchesOnlyCaller(s: Server, c: ConnId, ids: seq<Id>, env: Env)
    requires c in s.conns
    ensures var step := Handle(s, c, OnSetFriends(ids), env);
      && step.server.online == s.online && step.server.store == s.store
      && step.server.conns.Keys == s.conns.Keys
      && (forall d :: d in s.conns && d != c ==> step.server.conns[d] == s.conns[d])
      && step.server.conns[c].userId == s.conns[c].userId
      && (forall i :: i in step.server.conns[c].rooms <==> i in s.conns[c].rooms || i in ids)
      && step.out == []
  {
  }

  /** The history events write only the history collection, through the
      recorder and the undo marker, and send nothing. */
  lemma HistoryEventsTouchOnlyHistory(s: Server, c: ConnId, ev: Event, env: Env)
    requires c in s.conns && (ev.OnTrackItemHistory? || ev.OnUndoLastAction?)
    ensures var step := Handle(s, c, ev, env);
      && step.server.online == s.online && step.server.conns == s.conns
      && step.server.store.users == s.store.users && step.server.store.requests == s.store.requests
      && step.server.store.lists == s.store.lists && step.server.store.items == s.store.items
      && (ev.OnTrackItemHistory? ==>
            step.server.store.history == TrackItemHistory(s.store.history, ev.record, env.freshId, env.now, env.faults.primary))
      && (ev.OnUndoLastAction? ==>
            step.server.store.history == DeleteLastAction(s.store.history, ev.recordId, env.faults.primary))
      && step.out == []
  {
  }

  /** The friend-request events write the store through `sendRequest` and
      `updateRequest` and leave the online list and the connections alone. */
  lemma FriendRequestEventsWriteStore(s: Server, c: ConnId, ev: Event, env: Env)
    requires c in s.conns && (ev.OnSendFriendRequest? || ev.OnAcceptFriendRequest?)
    ensures var step := Handle(s, c, ev, env);
      && step.server.online == s.online && step.server.conns == s.conns
      && (ev.OnSendFriendRequest? ==>
            step.server.store == SendRequest(s.store, ev.request, env.freshId, env.now, env.faults))
      && (ev.OnAcceptFriendRequest? ==>
            step.server.store == UpdateRequest(s.store, ev.requestId, ev.request, env.now, env.faults))
  {
  }

  /** A relayed list or item event changes nothing and is re-emitted once under
      its relayed name with the data unchanged. */
  lemma RelayChangesNothing(s: Server, c: ConnId, kind: RelayKind, room: Id, data: string, env: Env)
    requires c in s.conns
    ensures var step := Handle(s, c, OnRelay(kind, room, data), env);
      && step.server == s
      && |step.out| == 1
      && step.out[0].event == RelayedEvent(kind)
      && step.out[0].payload == Text(data)
  {
  }

  /** Relayed and friend-request events never go back to their sender, and a
      connection outside every target room receives nothing. */
  lemma RelayReachesOnlyOtherMembers(s: Server, c: ConnId, ev: Event, env: Env, d: ConnId)
    requires Arrives(s, c, ev)
    requires ev.OnRelay? || ev.OnSendFriendRequest? || ev.OnAcceptFriendRequest?
    ensures forall e :: e in Handle(s, c, ev, env).out ==> c !in e.to
    ensures ev.OnRelay? && d in s.conns && ev.room !in s.conns[d].rooms ==>
      forall e :: e in Handle(s, c, ev, env).out ==> d !in e.to
    ensures ev.OnRelay? && d in s.conns && d != c && ev.room in s.conns[d].rooms ==>
      d in Handle(s, c, ev, env).out[0].to
  {
    match ev
    case OnRelay(_, room, _) =>
      RecipientsAreOtherMembers(s.conns, c, {room}, d);
    case OnSendFriendRequest(r) =>
      RecipientsAreOtherMembers(s.conns, c, {r.receiverId}, d);
      RecipientsAreOtherMembers(s.conns, c, {r.receiverId, r.requesterId}, d);
    case OnAcceptFriendRequest(_, r) =>
      RecipientsAreOtherMembers(s.conns, c, {r.requesterId}, d);
      RecipientsAreOtherMembers(s.conns, c, {r.receiverId, r.requesterId}, d);
  }

  /** A friend request is announced to the receiver's room only, and the
      notification alert to both parties' rooms, never to the sender. */
  lemma FriendRequestAnnouncedToReceiver(s: Server, c: ConnId, r: RequestInput, env: Env, d: ConnId)
    requires c in s.conns && d in s.conns && d != c
    ensures var out := Handle(s, c, OnSendFriendRequest(r), env).out;
      && |out| == 2
      && out[0].event == "receivedFriendRequest" && out[0].payload == RequestData(r)
      && out[1].event == "notificationAlert"
      && c !in out[0].to && c !in out[1].to
      && (d in out[0].to <==> r.receiverId in s.conns[d].rooms)
      && (d in out[1].to <==> r.receiverId in s.conns[d].rooms || r.requesterId in s.conns[d].rooms)
  {
    RecipientsAreOtherMembers(s.conns, c, {r.receiverId}, d);
    RecipientsAreOtherMembers(s.conns, c, {r.receiverId, r.requesterId}, d);
  }

  /** An acceptance is announced to the requester's room only, and the
      notification alert to both parties' rooms, never to the sender. */
  lemma AcceptanceAnnouncedToRequester(s: Server, c: ConnId, requestId: Id, r: RequestInput, env: Env, d: ConnId)
    requires c in s.conns && d in s.conns && d != c
    ensures var out := Handle(s, c, OnAcceptFriendRequest(requestId, r), env).out;
      && |out| == 2
      && out[0].event == "acceptedFriendRequest" && out[0].payload == AcceptData(requestId, r)
      && out[1].event == "notificationAlert"
      && c !in out[0].to && c !in out[1].to
      && (d in out[0].to <==> r.requesterId in s.conns[d].rooms)
      && (d in out[1].to <==> r.receiverId in s.conns[d].rooms || r.requesterId in s.conns[d].rooms)
  {
    RecipientsAreOtherMembers(s.conns, c, {r.requesterId}, d);
    RecipientsAreOtherMembers(s.conns, c, {r.receiverId, r.requesterId}, d);
  }

  /** A connection that never authenticated leaves the online list as it was
      when it disconnects. */
  lemma UnauthenticatedDisconnectKeepsOnline(s: Server, c: ConnId, env: Env)
    requires c in s.conns && s.conns[c].userId.None?
    ensures var step := Handle(s, c, OnDisconnect, env);
      step.server.online == s.online && c !in step.server.conns
  {
  }

  /** A disconnect drops at most one entry, the first of the connection's user,
      and keeps the other users' entries in order. */
  lemma {:induction false} DisconnectRemovesOneEntry(s: Server, c: ConnId, env: Env)
    requires c in s.conns && s.conns[c].userId.Some?
    ensures var u := s.conns[c].userId.value;
      var step := Handle(s, c, OnDisconnect, env);
      && CountUser(step.server.online, u) == (if CountUser(s.online, u) == 0 then 0 else CountUser(s.online, u) - 1)
      && Others(step.server.online, u) == Others(s.online, u)
      && c !in step.server.conns
      && |step.out| == 1
      && step.out[0].event == "onlineUserList"
      && step.out[0].payload == OnlineUsers(step.server.online)
      && step.out[0].to == s.conns.Keys - {c}
  {
    var u := s.conns[c].userId.value;
    var online := Deregister(s.online, Some(u));
    var step := Handle(s, c, OnDisconnect, env);
    assert step == Step(s.(online := online, conns := s.conns - {c}),
                        [Emission(s.conns.Keys - {c}, "onlineUserList", OnlineUsers(online))]);
    DeregisterRemovesOneEntry(s.online, u);
    DeregisterKeepsOthersInOrder(s.online, u);
  }

  /** A connection that authenticates twice as the same user and then
      disconnects leaves one stale entry of that user behind. */
  lemma {:induction false} ReauthenticationLeavesStaleEntry(s: Server, c: ConnId, u: Claims, env: Env)
    requires c in s.conns
    ensures var s1 := Handle(s, c, OnSetUser(Some(u)), env).server;
      var s2 := Handle(s1, c, OnSetUser(Some(u)), env).server;
      var s3 := Handle(s2, c, OnDisconnect, env).server;
      CountUser(s3.online, u.id) == CountUser(s.online, u.id) + 1
  {
    var s1 := Handle(s, c, OnSetUser(Some(u)), env).server;
    AuthSuccessRegistersOnce(s, c, u, env);
    assert c in s1.conns;
    var s2 := Handle(s1, c, OnSetUser(Some(u)), env).server;
    AuthSuccessRegistersOnce(s1, c, u, env);
    assert c in s2.conns && s2.conns[c].userId == Some(u.id);
    assert s2.online == Register(Register(s.online, u.id, u.firstName, u.lastName), u.id, u.firstName, u.lastName);
    RegisterDoesNotDeduplicate(s.online, u.id, u.firstName, u.lastName, u.firstName, u.lastName);
    DisconnectRemovesOneEntry(s2, c, env);
  }
}

=== FILE: wrappers.dfy ===
/** Optional values and handler outcomes shared by every module of the model. */
module Wrappers {

  /** An optional field of a request body or of a stored document. */
  datatype Option<+T> = None | Some(value: T) {

    /** The carried value, or `default` when absent. */
    function GetOr(default: T): T {
      match this
      case Some(v) => v
      case None => default
    }
  }

  /** The response of an HTTP handler: its data, or the error code it reports. */
  datatype Result<+T> = Ok(value: T) | Err(code: string)

  /** The document store after a handler ran, with the handler's response. */
  datatype Reply<S, +T> = Reply(state: S, result: Result<T>)
}
